=== FILE: README.md ===
# Tennis-court reservation lifecycle, modelled in Dafny

This project models the reservation lifecycle engine of a tennis-court booking
service (`ReservationService`) together with the schedule-creation guard and
lookup of `ScheduleService`. Guests book a one-hour slot on a schedule, may
cancel it for a refund that shrinks as the start approaches, or reschedule it,
which cancels the old reservation, marks it `RESCHEDULED` and books a
replacement that links back to it.

Modules, one per concept:

- `Wrappers`: `Option` and `Result`, standing for `Optional` and for calls that
  return or throw.
- `Errors`: one constructor per throw site, grouped into the three exception
  classes. These are `EntityNotFoundException`, the cancellation guard's
  `IllegalArgumentException` and the schedule guard's `BusinessException`.
- `Time`: `LocalDateTime` as whole seconds, `isBefore`, `plusHours(1)` and
  `ChronoUnit.MINUTES.between`, which truncates toward zero.
- `Repository`: a JPA repository as a map from generated id to entity. New ids
  come from a sequence starting at 1.
- `Guests`: the guest directory as a partial map (`findGuestById`).
- `Schedules`: `addSchedule`, `verifyAddSchedule` and `findSchedule`.
- `Reservations`: the reservation entity, its status and the returned view.
  It also holds `WellFormed`, the invariant every stored reservation keeps.
- `Refunds`: `getRefundValue` and its tier table.
- `ReservationService`: booking, lookup, cancellation and rescheduling.
- `Lifecycle`: arbitrary sequences of calls, with the invariants they keep.
  Stored reservations are never deleted, and a reservation changes at most
  once, out of `READY_TO_PLAY`.
- `Scenarios`: worked examples on concrete data.

Modelling assumptions:

- Money is a Dafny `real`. `BigDecimal` multiplication by 1, 0.75, 0.50 or
  0.25 is exact, so no rounding is involved.
- Time is an integer count of seconds. `MINUTES.between` is modelled with its
  truncation toward zero, so 59 seconds count as 0 minutes.
- Each operation takes one `now`. The source reads the clock twice during a
  cancellation: the guard reads it at `ReservationService.java:90` and the
  refund at line 69. The model assumes both reads give the same instant.
- A booked reservation starts in `READY_TO_PLAY`. `createReservationDTO` sets
  no status, so this status comes from a default in the entity class. That
  class is not part of this model.
- A reservation keeps the schedule it was booked on as a value. The core never
  modifies a stored schedule, so this value equals the live entity.
- A reservation also keeps the guest it was booked by as a value, taken from
  the directory at booking time. In the source it is a link to the live guest
  row. `GuestService.updateGuest` (GuestService.java:25-30) changes only a
  guest's name, never its id, so every id the model reads agrees with the
  source. This includes the guest id that reschedule books the replacement
  under. But after a rename, the reservations that `findReservation`,
  `cancel` and the reschedule view return show the booking-time name, where
  the source shows the current one.
- Two start instants are kept apart. `schedule.start` is the schedule's start;
  the cancellation guard reads it. `start` is the instant the caller asked for;
  the refund and the one-hour end are computed from it.
- The `previousReservation` back-link exists only in the returned view
  (`ReservationView`). The entity class is not part of this model, so the link
  is not assumed to be persisted.
- Court lookup inside `addSchedule` calls `TennisCourtService.findTennisCourtById`.
  That service is not part of this model. It is modelled as a set of known
  court ids. A missing id is assumed to fail with not-found, as the other
  finders do.

Three facts about the code shape the model:

- The cancellation guard compares the schedule's start, not the
  reservation's own start, with `isBefore`. A schedule start equal to `now`
  therefore passes. The refund then depends on the reservation's own start:
  it is 0 only when that start is less than a minute after `now`.
- A booking takes its start from the caller, not from the schedule, and its
  end is that start plus one hour.
- Reschedule saves twice, the cancellation and then the status change, before
  it books, and nothing is rolled back. If the booking lookup fails, the old
  reservation stays `RESCHEDULED` with no successor.
  `ReservationService.RescheduleReservation` states this, and
  `Scenarios.RescheduleOrphansOnMissingSchedule` exhibits it.

## Model

| member | source | states |
|---|---|---|
| Time.MinutesBetween | src/main/java/com/tenniscourts/reservations/ReservationService.java:98 | the minutes between two instants, truncated toward zero on both sides of zero |
| Time.PlusOneHour | src/main/java/com/tenniscourts/reservations/ReservationService.java:44 | the end is exactly one hour (3600 s) after the start, so strictly after it and 60 whole minutes later |
| Time.AtLeastMinutes | src/main/java/com/tenniscourts/reservations/ReservationService.java:98-106 | reaching a tier of k >= 1 whole minutes is the same as being k*60 seconds or more ahead |
| Time.MinutesBetweenAntitone | src/main/java/com/tenniscourts/reservations/ReservationService.java:98 | a later reference instant never leaves more minutes until the start |
| Guests.FindGuestById | src/main/java/com/tenniscourts/guests/GuestService.java:44-48 | a present id gives its stored guest; an absent id gives guest-not-found |
| Schedules.VerifyAddSchedule | src/main/java/com/tenniscourts/schedules/ScheduleService.java:34-44 | a window is accepted iff now <= start <= end; a start before now is rejected first; an end before the start is rejected only when the start is not in the past |
| Schedules.AddSchedule | src/main/java/com/tenniscourts/schedules/ScheduleService.java:26-53 | the court is checked first, then the guard; any failure leaves the catalog unchanged; on success the saved schedule has the requested start, end and court and a fresh id, and is the only row added |
| Schedules.AddScheduleIgnoresCourtArgument | src/main/java/com/tenniscourts/schedules/ScheduleService.java:26-31 | the `tennisCourtId` argument has no effect; the request's court id is the one used |
| Schedules.AddThenFind | src/main/java/com/tenniscourts/schedules/ScheduleService.java:26-64 | the schedule a successful `addSchedule` returns is the one `findSchedule` then finds under its id |
| Schedules.FindSchedule | src/main/java/com/tenniscourts/schedules/ScheduleService.java:60-64 | a present id gives the stored schedule; an absent id gives schedule-not-found |
| ReservationService.CreateReservation | src/main/java/com/tenniscourts/reservations/ReservationService.java:38-46 | the schedule is looked up before the guest, and each missing one gives its own not-found; the reservation takes the caller's start, ends one hour later whatever the schedule's window, costs 10, has no refund and is ready to play |
| ReservationService.BookReservation | src/main/java/com/tenniscourts/reservations/ReservationService.java:32-36 | success iff schedule and guest both resolve; a failure stores nothing; a success adds exactly one reservation under a fresh id |
| ReservationService.FindReservation | src/main/java/com/tenniscourts/reservations/ReservationService.java:54-58 | a present id gives its stored reservation; an absent id gives reservation-not-found |
| ReservationService.BookThenFind | src/main/java/com/tenniscourts/reservations/ReservationService.java:32-58 | the reservation a successful booking returns is the one `findReservation` then finds under its id |
| ReservationService.ValidateCancellation | src/main/java/com/tenniscourts/reservations/ReservationService.java:85-93 | passes iff the status is ready to play and the schedule's start is not before now; a terminal status is refused first; a start equal to now passes |
| ReservationService.UpdateReservation | src/main/java/com/tenniscourts/reservations/ReservationService.java:77-83 | exactly status, refund and value change, and the value drops by the refund |
| ReservationService.Cancel | src/main/java/com/tenniscourts/reservations/ReservationService.java:60-75 | success iff the id exists, is ready to play and its schedule's start is not before now; each failure has its own error and leaves the store unchanged; on success only that record changes, to cancelled, with a refund between 0 and its value and a non-negative remaining value |
| ReservationService.RescheduleReservation | src/main/java/com/tenniscourts/reservations/ReservationService.java:112-125 | a failed cancel is returned unchanged with no store change; otherwise the old record ends rescheduled with the cancel's refund and value, whether or not the booking succeeds; a failed booking gives schedule-not-found, else guest-not-found; on success the new reservation has the old guest, the new schedule and start, value 10 and a fresh id, and links back to the old record |
| ReservationService.CancelThenFind | src/main/java/com/tenniscourts/reservations/ReservationService.java:54-83 | the reservation a successful cancel returns is the one `findReservation` then finds under its id |
| ReservationService.CancelIsNotRepeatable | src/main/java/com/tenniscourts/reservations/ReservationService.java:85-88 | after a successful cancel, cancelling the same id again is refused as not ready to play and changes nothing |
| Refunds.RefundFraction | src/main/java/com/tenniscourts/reservations/ReservationService.java:96-107 | the fraction lies in [0, 1]; it is 0 iff less than one minute remains, and 1 iff at least 1440 minutes remain |
| Refunds.RefundValue | src/main/java/com/tenniscourts/reservations/ReservationService.java:95-110 | for a non-negative value, 0 <= refund <= value; less than a minute before the reservation's own start nothing is refunded; a day or more before it, everything is |
| Refunds.QuarterPerThreshold | src/main/java/com/tenniscourts/reservations/ReservationService.java:99-107 | the tier table equals a quarter of the value for each threshold reached among 1, 120, 720 and 1440 minutes |
| Refunds.RefundFractionMonotone | src/main/java/com/tenniscourts/reservations/ReservationService.java:99-107 | more minutes until the start never give a smaller fraction |
| Refunds.RefundTiers | src/main/java/com/tenniscourts/reservations/ReservationService.java:99-107 | each of the five tiers holds exactly on its range of minutes, in both directions |
| Refunds.RefundBoundaries | src/main/java/com/tenniscourts/reservations/ReservationService.java:99-107 | the fraction at 1440/1439, 720/719, 120/119 and 1/0 minutes |
| Refunds.RefundNonIncreasingInNow | src/main/java/com/tenniscourts/reservations/ReservationService.java:95-110 | for a non-negative value, cancelling later never refunds more |
| Lifecycle.CancelledWellFormed | src/main/java/com/tenniscourts/reservations/ReservationService.java:77-110 | cancelling or rescheduling a well-formed ready reservation keeps refund in [0, 10] and value = 10 - refund |
| Lifecycle.ApplyPreserves | src/main/java/com/tenniscourts/reservations/ReservationService.java:32-125 | every call keeps ids fresh and keyed, every reservation well formed, and every reservation's schedule stored as it is |
| Lifecycle.RunPreserves | src/main/java/com/tenniscourts/reservations/ReservationService.java:32-125 | any sequence of calls keeps that invariant |
| Lifecycle.ReachableConsistent | src/main/java/com/tenniscourts/reservations/ReservationService.java:32-125 | every state reachable from empty repositories satisfies it, with the guest and court directories free to change between calls |
| Lifecycle.ApplyKeepsHistory | src/main/java/com/tenniscourts/reservations/ReservationService.java:64-93 | one call deletes no reservation, and changes one only from ready to play to a terminal status, touching only status, refund and value |
| Lifecycle.RunKeepsHistory | src/main/java/com/tenniscourts/reservations/ReservationService.java:64-93 | the same holds over any sequence of calls |
| Lifecycle.TerminalIsFinal | src/main/java/com/tenniscourts/reservations/ReservationService.java:85-88 | a cancelled or rescheduled reservation is never changed again by any sequence of calls |
| Scenarios.FullRefundTwoDaysAhead | src/main/java/com/tenniscourts/reservations/ReservationService.java:95-110 | cancelling 2880 minutes ahead refunds 10 and leaves value 0, status cancelled |
| Scenarios.QuarterRefundNinetyMinutesAhead | src/main/java/com/tenniscourts/reservations/ReservationService.java:105-109 | cancelling 90 minutes ahead refunds 2.5 and leaves 7.5 |
| Scenarios.CancelAtStartRefundsNothing | src/main/java/com/tenniscourts/reservations/ReservationService.java:90-106 | a reservation booked at its schedule's start, where the schedule starts exactly now, can be cancelled, with refund 0 |
| Scenarios.GuardAndRefundReadDifferentStarts | src/main/java/com/tenniscourts/reservations/ReservationService.java:90-98 | a requested start in the past on a future schedule passes the guard and gets refund 0 |
| Scenarios.RescheduleTenHoursAhead | src/main/java/com/tenniscourts/reservations/ReservationService.java:112-125 | 600 minutes ahead, rescheduled onto a second schedule a day later: old record rescheduled with refund 5 and value 5; new record id 2 on schedule 2 at the new start, value 10, ready, linked to id 1, which the view shows as rescheduled |
| Scenarios.RescheduleOrphansOnMissingSchedule | src/main/java/com/tenniscourts/reservations/ReservationService.java:112-122 | a missing new schedule throws not-found after the old record was already saved as rescheduled |

## Left out

- `findAllReservations` (ReservationService.java:48-52) is not modelled. It maps every repository row, in the repository's own order, which is not visible.
- `ScheduleService.findSchedulesByDates` is not modelled. It is an unimplemented stub that returns `null`.
- `ScheduleService.findSchedulesByTennisCourtId` is not modelled. Its ordering comes from a derived repository query that is not part of this model.
- The controllers are not modelled. They do HTTP routing, status codes and API documentation only.
- `GuestService` create/update/delete/find-by-name are not modelled. The engine only reads the directory, which is modelled as a partial map.
- Mappers, JPA entities, `saveAndFlush`/`save` mechanics and DTO JSON formats are not modelled. The repository is a map with sequence-drawn ids.
- Identifiers are `nat`, so the model cannot express the calls the source can receive with a negative or a null `Long` id. A negative id would give not-found there; a null id would make `findById` throw `IllegalArgumentException`.
- Instants are never null and are unbounded integers. Two source behaviours therefore cannot be expressed. The first is the `NullPointerException` at ReservationService.java:44 for a request without a start; inside reschedule it would come after the two saves and also leave the old reservation `RESCHEDULED` with no successor. The second is `plusHours` overflowing `LocalDateTime.MAX`.
- Reading the wall clock is not modelled: `now` is a parameter.
- Sub-second precision of `LocalDateTime` is not modelled.
- The scale of `BigDecimal` results is not modelled (for example 7.50 versus 7.5). Only the numeric value is.
- Concurrency and transactions are not modelled. Reschedule is the plain sequence of its steps, without rollback.
- ReservationService.RescheduleReservation: the facts about a successful reschedule (the new reservation and the saved old record) are stated for a valid repository (every stored id below the next one). That is what the id sequence guarantees; otherwise the new id could overwrite an existing row.

=== FILE: errors.dfy ===
/** The exceptions the services throw, one constructor per throw site. */
module Errors {

  datatype Error =
    /** `EntityNotFoundException("Reservation not found.")` */
    | ReservationNotFound(reservationId: nat)
    /** `EntityNotFoundException("Schedule %s was not found.")` */
    | ScheduleNotFound(scheduleId: nat)
    /** `EntityNotFoundException("Guest %s not found.")` */
    | GuestNotFound(guestId: nat)
    /** The tennis-court lookup made while building a schedule found nothing. */
    | CourtNotFound(courtId: nat)
    /** `IllegalArgumentException`: the reservation is not in ready-to-play status. */
    | NotReadyToPlay
    /** `IllegalArgumentException`: only future dates can be cancelled or rescheduled. */
    | NotFutureDate
    /** `BusinessException`: a schedule may not start before the current time. */
    | StartBeforeNow
    /** `BusinessException`: a schedule may not end before it starts. */
    | EndBeforeStart
  {
    /** Thrown as `EntityNotFoundException`. */
    predicate IsNotFound() {
      ReservationNotFound? || ScheduleNotFound? || GuestNotFound? || CourtNotFound?
    }

    /** Thrown as `IllegalArgumentException` by the cancellation guard. */
    predicate IsInvalidState() {
      NotReadyToPlay? || NotFutureDate?
    }

    /** Thrown as `BusinessException` by the schedule guard. */
    predicate IsBusiness() {
      StartBeforeNow? || EndBeforeStart?
    }
  }
}

=== FILE: guests.dfy ===
/** The guest directory as the reservation engine consumes it: a partial map
    from guest identifier to guest. */
module Guests {
  import opened Wrappers
  import opened Errors

  datatype Guest = Guest(id: nat, name: string)

  type Directory = map<nat, Guest>

  /** `GuestService.findGuestById`: the stored guest, or `EntityNotFoundException`. */
  function FindGuestById(guests: Directory, id: nat): (r: Result<Guest, Error>)
    ensures r.Success? <==> id in guests
    ensures r.Success? ==> r.value == guests[id]
    ensures r.Failure? ==> r.error == GuestNotFound(id)
  {
    if id in guests then Success(guests[id]) else Failure(GuestNotFound(id))
  }
}

=== FILE: lifecycle.dfy ===
/** The services composed: any sequence of schedule creations, bookings,
    cancellations and reschedules, and what stays true along the way. The
    court and guest directories are maintained outside this core and may
    change between calls, so each call carries the directory it sees. */
module Lifecycle {
  import opened Time
  import opened Repository
  import opened Guests
  import opened Reservations
  import opened Refunds
  import S = Schedules
  import RS = ReservationService

  /** Everything the two services persist. */
  datatype System = System(reservations: RS.Store, catalog: S.Catalog)

  /** One call into the services; each carries the instant it observes and
      the court or guest directory as it stands at that call. */
  datatype Command =
    | AddSchedule(courts: set<nat>, tennisCourtId: nat, scheduleRequest: S.ScheduleRequest, now: Instant)
    | Book(guests: Directory, bookingRequest: RS.BookingRequest)
    | Cancel(reservationId: nat, now: Instant)
    | Reschedule(guests: Directory, reservationId: nat, scheduleId: nat, newStart: Instant, now: Instant)

  /** Nothing stored yet. */
  function Initial(): System {
    System(Empty(), Empty())
  }

  /** The state left behind by one call, whether it returned or threw. */
  function Apply(sys: System, cmd: Command): System {
    match cmd
    case AddSchedule(courts, courtArg, request, now) =>
      sys.(catalog := S.AddSchedule(sys.catalog, courts, courtArg, request, now).catalog)
    case Book(guests, request) =>
      sys.(reservations := RS.BookReservation(sys.reservations, sys.catalog, guests, request).store)
    case Cancel(id, now) =>
      sys.(reservations := RS.Cancel(sys.reservations, id, now).store)
    case Reschedule(guests, id, scheduleId, newStart, now) =>
      sys.(reservations := RS.RescheduleReservation(sys.reservations, sys.catalog, guests,
                                                    id, scheduleId, newStart, now).store)
  }

  /** The state left behind by a sequence of calls. */
  function Run(sys: System, cmds: seq<Command>): System
    decreases |cmds|
  {
    if cmds == [] then sys
    else Run(Apply(sys, cmds[0]), cmds[1..])
  }

  /** Every reservation refers to a schedule that is stored, as it is stored. */
  predicate SchedulesResolve(sys: System) {
    forall id :: id in sys.reservations.rows ==>
      var v := sys.reservations.rows[id];
      v.schedule.id in sys.catalog.rows && sys.catalog.rows[v.schedule.id] == v.schedule
  }

  /** The invariant of the persisted state. */
  predicate Consistent(sys: System) {
    && sys.reservations.Valid() && sys.reservations.KeyedBy(ReservationId)
    && sys.catalog.Valid() && sys.catalog.KeyedBy(S.ScheduleId)
    && (forall id :: id in sys.reservations.rows ==> WellFormed(sys.reservations.rows[id]))
    && SchedulesResolve(sys)
  }

  /** How one stored reservation may differ from an earlier version of
      itself: not at all, or by the single move out of `ReadyToPlay`, which
      touches only status, refund and value. */
  predicate Successor(before: Reservation, after: Reservation) {
    || after == before
    || (&& before.status == ReadyToPlay
        && after.status.IsTerminal()
        && after.(status := before.status, refundValue := before.refundValue, value := before.value) == before)
  }

  lemma SuccessorTransitive(a: Reservation, b: Reservation, c: Reservation)
    requires Successor(a, b) && Successor(b, c)
    ensures Successor(a, c)
  {
  }

  /** Cancelling a ready reservation of a consistent store keeps it well formed. */
  lemma CancelledWellFormed(v: Reservation, now: Instant, status: Status)
    requires WellFormed(v) && v.status == ReadyToPlay
    requires status.IsTerminal()
    ensures WellFormed(RS.UpdateReservation(v, RefundValue(now, v), status))
  {
  }

  /** One call of any kind keeps the persisted state consistent. */
  lemma ApplyPreserves(sys: System, cmd: Command)
    requires Consistent(sys)
    ensures Consistent(Apply(sys, cmd))
  {
    var rows := sys.reservations.rows;
    match cmd
    case AddSchedule(_, _, _, _) =>
    case Book(guests, request) =>
      var b := RS.BookReservation(sys.reservations, sys.catalog, guests, request);
      if b.result.Success? {
        var v := b.result.value;
        var c := RS.CreateReservation(sys.catalog, guests, request, v.id);
        assert c.Success? && v == c.value;
        assert WellFormed(v) && v.schedule == sys.catalog.rows[request.scheduleId];
      }
    case Cancel(id, now) =>
      var c := RS.Cancel(sys.reservations, id, now);
      if c.result.Success? {
        CancelledWellFormed(rows[id], now, Cancelled);
      }
    case Reschedule(_, id, _, _, now) =>
      var c := RS.Cancel(sys.reservations, id, now);
      if c.result.Success? {
        CancelledWellFormed(rows[id], now, Rescheduled);
      }
  }

  /** Any sequence of calls keeps the persisted state consistent. */
  lemma {:induction false} RunPreserves(sys: System, cmds: seq<Command>)
    requires Consistent(sys)
    ensures Consistent(Run(sys, cmds))
    decreases |cmds|
  {
    if cmds != [] {
      ApplyPreserves(sys, cmds[0]);
      RunPreserves(Apply(sys, cmds[0]), cmds[1..]);
    }
  }

  /** Every state the services can reach is consistent. */
  lemma ReachableConsistent(cmds: seq<Command>)
    ensures Consistent(Run(Initial(), cmds))
  {
    RunPreserves(Initial(), cmds);
  }

  /** One call never deletes a reservation, and changes a stored one at most
      by its single move out of `ReadyToPlay`. */
  lemma ApplyKeepsHistory(sys: System, cmd: Command, id: nat)
    requires sys.reservations.Valid()
    requires id in sys.reservations.rows
    ensures id in Apply(sys, cmd).reservations.rows
    ensures Successor(sys.reservations.rows[id], Apply(sys, cmd).reservations.rows[id])
  {
  }

  /** Over any sequence of calls, a stored reservation is never deleted, and
      it changes at most once: from `ReadyToPlay` to a terminal status, with
      only status, refund and value changing. */
  lemma {:induction false} RunKeepsHistory(sys: System, cmds: seq<Command>, id: nat)
    requires Consistent(sys)
    requires id in sys.reservations.rows
    ensures id in Run(sys, cmds).reservations.rows
    ensures Successor(sys.reservations.rows[id], Run(sys, cmds).reservations.rows[id])
    decreases |cmds|
  {
    if cmds != [] {
      var next := Apply(sys, cmds[0]);
      ApplyKeepsHistory(sys, cmds[0], id);
      ApplyPreserves(sys, cmds[0]);
      RunKeepsHistory(next, cmds[1..], id);
      SuccessorTransitive(sys.reservations.rows[id], next.reservations.rows[id],
                          Run(next, cmds[1..]).reservations.rows[id]);
    }
  }

  /** A cancelled or rescheduled reservation never changes again, so its
      refund, once set, is fixed. */
  lemma TerminalIsFinal(sys: System, cmds: seq<Command>, id: nat)
    requires Consistent(sys)
    requires id in sys.reservations.rows && sys.reservations.rows[id].status.IsTerminal()
    ensures id in Run(sys, cmds).reservations.rows
    ensures Run(sys, cmds).reservations.rows[id] == sys.reservations.rows[id]
  {
    RunKeepsHistory(sys, cmds, id);
  }
}

=== FILE: refunds.dfy ===
/** `ReservationService.getRefundValue`: the share of a reservation's value
    returned on cancellation, by whole minutes left until its start. */
module Refunds {
  import opened Time
  import opened Reservations

  /** Lower bounds, in minutes, of the four refund tiers: each one reached
      adds a quarter of the value. */
  const Thresholds: seq<int> := [1, 120, 720, 1440]

  /** The refund fraction for `minutes` left until the start. */
  function RefundFraction(minutes: int): (t: real)
    ensures 0.0 <= t <= 1.0
    ensures t == 0.0 <==> minutes < 1
    ensures t == 1.0 <==> minutes >= 1440
  {
    if minutes >= 1440 then 1.0
    else if minutes >= 720 then 0.75
    else if minutes >= 120 then 0.50
    else if minutes >= 1 then 0.25
    else 0.0
  }

  /** `getRefundValue(referenceDate, reservation)`: the reservation's own
      start (not its schedule's) against `now`, applied to its current value. */
  function RefundValue(now: Instant, r: Reservation): (refund: real)
    ensures r.value >= 0.0 ==> 0.0 <= refund <= r.value
    ensures r.start - now < SecondsPerMinute ==> refund == 0.0
    ensures r.start - now >= 1440 * SecondsPerMinute ==> refund == r.value
  {
    var m := MinutesBetween(now, r.start);
    AtLeastMinutes(now, r.start, 1);
    AtLeastMinutes(now, r.start, 1440);
    r.value * RefundFraction(m)
  }

  /** How many elements of `s` are at most `m`. */
  function CountAtMost(s: seq<int>, m: int): nat
  {
    if s == [] then 0
    else (if s[0] <= m then 1 else 0) + CountAtMost(s[1..], m)
  }

  /** Counting thresholds reached never decreases as `m` grows. */
  lemma {:induction false} CountAtMostMonotone(s: seq<int>, m1: int, m2: int)
    requires m1 <= m2
    ensures CountAtMost(s, m1) <= CountAtMost(s, m2)
    decreases |s|
  {
    if s != [] {
      CountAtMostMonotone(s[1..], m1, m2);
    }
  }

  /** The tier table is "a quarter per threshold reached". */
  lemma QuarterPerThreshold(m: int)
    ensures RefundFraction(m) == 0.25 * (CountAtMost(Thresholds, m) as real)
  {
    var s := Thresholds;
    assert s[1..] == [120, 720, 1440];
    assert s[1..][1..] == [720, 1440];
    assert s[1..][1..][1..] == [1440];
    assert s[1..][1..][1..][1..] == [];
    var c4 := if 1440 <= m then 1 else 0;
    assert CountAtMost([1440], m) == c4;
    var c3 := c4 + if 720 <= m then 1 else 0;
    assert CountAtMost([720, 1440], m) == c3;
    var c2 := c3 + if 120 <= m then 1 else 0;
    assert CountAtMost([120, 720, 1440], m) == c2;
    var c1 := c2 + if 1 <= m then 1 else 0;
    assert CountAtMost(s, m) == c1;
  }

  /** The refund fraction never decreases as the minutes left grow. */
  lemma RefundFractionMonotone(m1: int, m2: int)
    requires m1 <= m2
    ensures RefundFraction(m1) <= RefundFraction(m2)
  {
    QuarterPerThreshold(m1);
    QuarterPerThreshold(m2);
    CountAtMostMonotone(Thresholds, m1, m2);
  }

  /** Each tier of the table, both directions. */
  lemma RefundTiers(m: int)
    ensures RefundFraction(m) == 1.0 <==> m >= 1440
    ensures RefundFraction(m) == 0.75 <==> 720 <= m < 1440
    ensures RefundFraction(m) == 0.50 <==> 120 <= m < 720
    ensures RefundFraction(m) == 0.25 <==> 1 <= m < 120
    ensures RefundFraction(m) == 0.0 <==> m < 1
  {
  }

  /** The boundary points of the table. */
  lemma RefundBoundaries()
    ensures RefundFraction(1440) == 1.0 && RefundFraction(1439) == 0.75
    ensures RefundFraction(720) == 0.75 && RefundFraction(719) == 0.50
    ensures RefundFraction(120) == 0.50 && RefundFraction(119) == 0.25
    ensures RefundFraction(1) == 0.25 && RefundFraction(0) == 0.0
  {
  }

  /** Cancelling later never refunds more. */
  lemma RefundNonIncreasingInNow(now1: Instant, now2: Instant, r: Reservation)
    requires now1 <= now2
    requires r.value >= 0.0
    ensures RefundValue(now2, r) <= RefundValue(now1, r)
  {
    MinutesBetweenAntitone(now1, now2, r.start);
    var m1 := MinutesBetween(now1, r.start);
    var m2 := MinutesBetween(now2, r.start);
    RefundFractionMonotone(m2, m1);
    assert r.value * RefundFraction(m2) <= r.value * RefundFraction(m1);
  }
}

=== FILE: repository.dfy ===
/** A JPA repository reduced to what the services use: rows keyed by a
    generated identifier, `findById`, `saveAndFlush` of a new entity (which
    draws the next identifier) and `save` of an existing one. */
module Repository {
  import opened Wrappers

  /** Generated identifiers are drawn from a sequence starting at 1. */
  const FirstId: nat := 1

  datatype Repo<T> = Repo(rows: map<nat, T>, nextId: nat) {

    /** Every stored identifier was drawn from the sequence already, so
        `nextId` is fresh. */
    predicate Valid() {
      forall id :: id in rows ==> id < nextId
    }

    /** Every row is stored under the identifier `key` reads from it. */
    predicate KeyedBy(key: T -> nat) {
      forall id :: id in rows ==> key(rows[id]) == id
    }

    /** `findById`. */
    function FindById(id: nat): (r: Option<T>)
      ensures r.Some? <==> id in rows
      ensures r.Some? ==> r.value == rows[id]
    {
      if id in rows then Some(rows[id]) else None
    }

    /** `saveAndFlush` of a new entity, stored under the identifier `nextId`. */
    function Insert(t: T): (r: Repo<T>)
      ensures Valid() ==> nextId !in rows && r.Valid()
      ensures r.rows == rows[nextId := t]
      ensures nextId < r.nextId
    {
      Repo(rows[nextId := t], nextId + 1)
    }

    /** `save` of an entity that is already stored under `id`. */
    function Update(id: nat, t: T): (r: Repo<T>)
      requires id in rows
      ensures Valid() ==> r.Valid()
      ensures r.rows.Keys == rows.Keys && r.rows[id] == t
      ensures forall k :: k in rows && k != id ==> r.rows[k] == rows[k]
      ensures r.nextId == nextId
    {
      Repo(rows[id := t], nextId)
    }
  }

  /** A repository with no rows. */
  function Empty<T>(): (r: Repo<T>)
    ensures r.Valid() && r.rows == map[]
  {
    Repo(map[], FirstId)
  }
}

=== FILE: reservation_service.dfy ===
/** `ReservationService`: booking, cancellation with tiered refund, and
    rescheduling, over a reservation repository. Every operation takes the
    current instant `now` as a parameter and reads it once. */
module ReservationService {
  import opened Wrappers
  import opened Errors
  import opened Time
  import opened Repository
  import opened Guests
  import opened Schedules
  import opened Reservations
  import opened Refunds

  type Store = Repo<Reservation>

  /** `CreateReservationRequestDTO`. */
  datatype BookingRequest = BookingRequest(scheduleId: nat, guestId: nat, start: Instant)

  /** The store after a call, and what the call returned or threw. */
  datatype Step<T> = Step(store: Store, result: Result<T, Error>)

  /** `createReservationDTO`, for a reservation that will be stored under `id`.
      The schedule is looked up before the guest. The end is one hour after
      the caller's start, whatever window the schedule itself records. The
      status is `ReadyToPlay`, the default of the entity. */
  function CreateReservation(catalog: Catalog, guests: Directory, request: BookingRequest, id: nat)
    : (r: Result<Reservation, Error>)
    ensures r.Success? <==> request.scheduleId in catalog.rows && request.guestId in guests
    ensures request.scheduleId !in catalog.rows ==> r == Failure(ScheduleNotFound(request.scheduleId))
    ensures request.scheduleId in catalog.rows && request.guestId !in guests ==>
              r == Failure(GuestNotFound(request.guestId))
    ensures r.Success? ==>
              var v := r.value;
              && v.id == id
              && v.schedule == catalog.rows[request.scheduleId]
              && v.guest == guests[request.guestId]
              && v.start == request.start
              && MinutesBetween(v.start, v.end) == MinutesPerHour && v.end - v.start == SecondsPerHour
              && v.value == ReservationValue
              && v.status == ReadyToPlay && v.refundValue == None
              && WellFormed(v)
  {
    match FindSchedule(catalog, request.scheduleId)
    case Failure(e) => Failure(e)
    case Success(schedule) =>
      match FindGuestById(guests, request.guestId)
      case Failure(e) => Failure(e)
      case Success(guest) =>
        Success(Reservation(id, schedule, guest, ReadyToPlay, None, ReservationValue,
                            request.start, PlusOneHour(request.start)))
  }

  /** `bookReservation`: the new reservation is saved under a fresh identifier;
      a failed lookup saves nothing. No check against other reservations of
      the same schedule is made. */
  function BookReservation(store: Store, catalog: Catalog, guests: Directory, request: BookingRequest)
    : (r: Step<Reservation>)
    ensures r.result.Success? <==> request.scheduleId in catalog.rows && request.guestId in guests
    ensures r.result.Failure? ==> r.store == store && r.result.error.IsNotFound()
    ensures r.result.Success? ==>
              var v := r.result.value;
              && v.id == store.nextId
              && r.store.rows == store.rows[v.id := v]
              && v == CreateReservation(catalog, guests, request, v.id).value
    ensures store.Valid() ==> r.store.Valid() && (r.result.Success? ==> r.result.value.id !in store.rows)
    ensures store.KeyedBy(ReservationId) ==> r.store.KeyedBy(ReservationId)
  {
    match CreateReservation(catalog, guests, request, store.nextId)
    case Failure(e) => Step(store, Failure(e))
    case Success(v) => Step(store.Insert(v), Success(v))
  }

  /** `findReservation`: the stored reservation, or `EntityNotFoundException`. */
  function FindReservation(store: Store, id: nat): (r: Result<Reservation, Error>)
    ensures r.Success? <==> id in store.rows
    ensures r.Success? ==> r.value == store.rows[id]
    ensures r.Failure? ==> r.error == ReservationNotFound(id)
  {
    match store.FindById(id)
    case Some(v) => Success(v)
    case None => Failure(ReservationNotFound(id))
  }

  /** `validateCancellation`: the status must be `ReadyToPlay`, and the
      SCHEDULE's start must not be before `now` (a start equal to `now`
      passes). */
  function ValidateCancellation(v: Reservation, now: Instant): (r: Option<Error>)
    ensures r.None? <==> v.status == ReadyToPlay && now <= v.schedule.start
    ensures r == Some(NotReadyToPlay) <==> v.status.IsTerminal()
    ensures r == Some(NotFutureDate) <==> v.status == ReadyToPlay && v.schedule.start < now
  {
    if v.status != ReadyToPlay then Some(NotReadyToPlay)
    else if IsBefore(v.schedule.start, now) then Some(NotFutureDate)
    else None
  }

  /** `updateReservation`: exactly three fields change; the value drops by
      the refund. */
  function UpdateReservation(v: Reservation, refund: real, status: Status): (r: Reservation)
    ensures r.status == status
    ensures r.refundValue == Some(refund)
    ensures r.value + refund == v.value
    ensures r.(status := v.status, refundValue := v.refundValue, value := v.value) == v
  {
    v.(status := status, value := v.value - refund, refundValue := Some(refund))
  }

  /** `cancel`: a missing reservation is `EntityNotFoundException`; one that
      fails `validateCancellation` is `IllegalArgumentException`; both leave
      the store as it was. Otherwise the refund is computed from the
      reservation's own start and the updated reservation is saved. */
  function Cancel(store: Store, id: nat, now: Instant): (r: Step<Reservation>)
    ensures r.result.Success? <==>
              id in store.rows && store.rows[id].status == ReadyToPlay && now <= store.rows[id].schedule.start
    ensures r.result.Failure? ==> r.store == store
    ensures id in store.rows && r.result.Failure? ==> r.result.error.IsInvalidState()
    ensures id !in store.rows ==> r.result == Failure(ReservationNotFound(id))
    ensures id in store.rows && store.rows[id].status.IsTerminal() ==> r.result == Failure(NotReadyToPlay)
    ensures id in store.rows && store.rows[id].status == ReadyToPlay && store.rows[id].schedule.start < now ==>
              r.result == Failure(NotFutureDate)
    ensures r.result.Success? ==>
              var prior := store.rows[id];
              var v := r.result.value;
              var refund := RefundValue(now, prior);
              && v == UpdateReservation(prior, refund, Cancelled)
              && (prior.value >= 0.0 ==> 0.0 <= refund <= prior.value && v.value >= 0.0)
              && r.store.rows == store.rows[id := v]
              && r.store.nextId == store.nextId
    ensures store.Valid() ==> r.store.Valid()
  {
    match store.FindById(id)
    case None => Step(store, Failure(ReservationNotFound(id)))
    case Some(v) =>
      match ValidateCancellation(v, now)
      case Some(e) => Step(store, Failure(e))
      case None =>
        var refund := RefundValue(now, v);
        var updated := UpdateReservation(v, refund, Cancelled);
        Step(store.Update(id, updated), Success(updated))
  }

  /** `rescheduleReservation`: cancel, overwrite the status with
      `Rescheduled` and save, then book the same guest on the new schedule at
      the new start, and return the booking with the old reservation attached.
      The two saves are not undone when the booking fails. */
  function RescheduleReservation(store: Store, catalog: Catalog, guests: Directory,
                                 previousId: nat, scheduleId: nat, newStart: Instant, now: Instant)
    : (r: Step<ReservationView>)
    ensures Cancel(store, previousId, now).result.Failure? ==>
              r == Step(store, Failure(Cancel(store, previousId, now).result.error))
    ensures r.result.Success? <==>
              && Cancel(store, previousId, now).result.Success?
              && scheduleId in catalog.rows
              && store.rows[previousId].guest.id in guests
    ensures Cancel(store, previousId, now).result.Success? && r.result.Failure? ==>
              var prior := store.rows[previousId];
              var p := UpdateReservation(prior, RefundValue(now, prior), Rescheduled);
              && r.store.rows == store.rows[previousId := p]
              && r.result.error == (if scheduleId !in catalog.rows then ScheduleNotFound(scheduleId)
                                    else GuestNotFound(prior.guest.id))
    ensures store.Valid() && r.result.Success? ==>
              var prior := store.rows[previousId];
              var p := UpdateReservation(prior, RefundValue(now, prior), Rescheduled);
              var v := r.result.value.reservation;
              && r.result.value.previousReservation == Some(p)
              && v.id == store.nextId
              && v.guest == guests[prior.guest.id]
              && v.schedule == catalog.rows[scheduleId]
              && v.start == newStart && v.end - v.start == SecondsPerHour
              && v.value == ReservationValue && v.status == ReadyToPlay
              && v.refundValue == None
              && r.store.rows == store.rows[previousId := p][v.id := v]
              && r.store.rows[previousId] == p
    ensures store.Valid() ==> r.store.Valid()
  {
    var cancelled := Cancel(store, previousId, now);
    match cancelled.result
    case Failure(e) => Step(store, Failure(e))
    case Success(c) =>
      var previous := c.(status := Rescheduled);
      var saved := cancelled.store.Update(previousId, previous);
      var booked := BookReservation(saved, catalog, guests,
                                    BookingRequest(scheduleId, previous.guest.id, newStart));
      match booked.result
      case Failure(e) => Step(booked.store, Failure(e))
      case Success(v) => Step(booked.store, Success(ReservationView(v, Some(previous))))
  }

  /** A cancelled reservation cannot be cancelled again, at any later or
      earlier instant, and the refused call changes nothing. */
  lemma CancelIsNotRepeatable(store: Store, id: nat, now1: Instant, now2: Instant)
    requires Cancel(store, id, now1).result.Success?
    ensures var s1 := Cancel(store, id, now1).store;
            Cancel(s1, id, now2) == Step(s1, Failure(NotReadyToPlay))
  {
  }

  /** What a successful booking returns is what a lookup of its id finds. */
  lemma BookThenFind(store: Store, catalog: Catalog, guests: Directory, request: BookingRequest)
    requires BookReservation(store, catalog, guests, request).result.Success?
    ensures var b := BookReservation(store, catalog, guests, request);
            FindReservation(b.store, b.result.value.id) == Success(b.result.value)
  {
  }

  /** What a successful cancellation returns is what a lookup of its id finds. */
  lemma CancelThenFind(store: Store, id: nat, now: Instant)
    requires Cancel(store, id, now).result.Success?
    ensures var c := Cancel(store, id, now);
            FindReservation(c.store, id) == Success(c.result.value)
  {
  }
}

=== FILE: reservations.dfy ===
/** The reservation entity, its status, and the view the service returns. */
module Reservations {
  import opened Wrappers
  import opened Time
  import opened Guests
  import opened Schedules

  /** `ReservationStatus`. `ReadyToPlay` is the only state that can still move. */
  datatype Status = ReadyToPlay | Cancelled | Rescheduled {
    predicate IsTerminal() {
      !ReadyToPlay?
    }
  }

  /** `RESERVATION_VALUE`, the price charged for every booking. */
  const ReservationValue: real := 10.0

  /** A stored reservation. It carries two start instants: `schedule.start`,
      the window of the booked schedule, and `start`, the instant the caller
      asked for. `refundValue` is `None` while the entity's field is null. */
  datatype Reservation = Reservation(
    id: nat,
    schedule: Schedule,
    guest: Guest,
    status: Status,
    refundValue: Option<real>,
    value: real,
    start: Instant,
    end: Instant)

  /** The identifier a reservation is stored under. */
  function ReservationId(v: Reservation): nat {
    v.id
  }

  /** `ReservationDTO` as returned to callers: the stored reservation and, after
      a reschedule, the reservation it replaced. */
  datatype ReservationView = ReservationView(reservation: Reservation, previousReservation: Option<Reservation>)

  /** What a reservation looks like at every point of its life: it lasts one
      hour, and it is either untouched (full price, no refund) or it left
      `ReadyToPlay` once, keeping a refund between nothing and the full price
      and owing the rest. */
  predicate WellFormed(r: Reservation) {
    && r.end - r.start == SecondsPerHour
    && (r.status == ReadyToPlay ==> r.refundValue == None && r.value == ReservationValue)
    && (r.status.IsTerminal() ==>
          && r.refundValue.Some?
          && 0.0 <= r.refundValue.value <= ReservationValue
          && r.value == ReservationValue - r.refundValue.value)
  }
}

=== FILE: scenarios.dfy ===
/** Worked examples of the lifecycle on concrete data: one schedule and one
    guest, booked at instant 0 of the clock. */
module Scenarios {
  import opened Wrappers
  import opened Errors
  import opened Time
  import opened Repository
  import opened Guests
  import opened Schedules
  import opened Reservations
  import opened ReservationService

  const Alice: Guest := Guest(1, "Alice")

  function Guests1(): Directory {
    map[1 := Alice]
  }

  /** A catalog holding schedule 1, starting `start` seconds after instant 0,
      and schedule 2, one day later on the same court. */
  function CatalogAt(start: Instant): Catalog {
    Repo(map[1 := Schedule(1, start, start + SecondsPerHour, 7),
             2 := Schedule(2, start + 1440 * SecondsPerMinute, start + 1440 * SecondsPerMinute + SecondsPerHour, 7)], 3)
  }

  /** The store after guest 1 books schedule 1 at its own start. */
  function BookedAt(start: Instant): Step<Reservation> {
    BookReservation(Empty(), CatalogAt(start), Guests1(), BookingRequest(1, 1, start))
  }

  /** Two days ahead (2880 minutes): the whole value comes back. */
  lemma FullRefundTwoDaysAhead()
    ensures BookedAt(2 * 1440 * SecondsPerMinute).result.Success?
    ensures var c := Cancel(BookedAt(2 * 1440 * SecondsPerMinute).store, 1, 0);
            && c.result.Success?
            && c.result.value.status == Cancelled
            && c.result.value.refundValue == Some(10.0)
            && c.result.value.value == 0.0
  {
  }

  /** Ninety minutes ahead: a quarter comes back. */
  lemma QuarterRefundNinetyMinutesAhead()
    ensures var c := Cancel(BookedAt(90 * SecondsPerMinute).store, 1, 0);
            && c.result.Success?
            && c.result.value.refundValue == Some(2.5)
            && c.result.value.value == 7.5
  {
  }

  /** A reservation booked at its schedule's start, where the schedule starts
      exactly now, may still be cancelled, for nothing back. */
  lemma CancelAtStartRefundsNothing()
    ensures var c := Cancel(BookedAt(0).store, 1, 0);
            && c.result.Success?
            && c.result.value.refundValue == Some(0.0)
            && c.result.value.value == 10.0
  {
  }

  /** The guard and the refund read different start instants: a booking whose
      requested start is already past, on a schedule still to come, passes the
      guard and is refunded nothing. */
  lemma GuardAndRefundReadDifferentStarts()
    ensures var b := BookReservation(Empty(), CatalogAt(2 * 1440 * SecondsPerMinute), Guests1(),
                                     BookingRequest(1, 1, -SecondsPerHour));
            var c := Cancel(b.store, 1, 0);
            && c.result.Success?
            && c.result.value.refundValue == Some(0.0)
  {
  }

  /** Ten hours ahead (600 minutes), rescheduled onto schedule 2 a day later:
      the old reservation keeps half, the new one is charged in full on the new
      schedule and links back to the old, rescheduled one. */
  lemma RescheduleTenHoursAhead()
    ensures var start := 10 * SecondsPerHour;
            var newStart := start + 1440 * SecondsPerMinute;
            var r := RescheduleReservation(BookedAt(start).store, CatalogAt(start), Guests1(), 1, 2, newStart, 0);
            && r.result.Success?
            && r.result.value.reservation.id == 2
            && r.result.value.reservation.schedule.id == 2
            && r.result.value.reservation.start == newStart
            && r.result.value.reservation.value == 10.0
            && r.result.value.reservation.status == ReadyToPlay
            && r.result.value.previousReservation.Some?
            && r.result.value.previousReservation.value.id == 1
            && r.result.value.previousReservation.value.status == Rescheduled
            && r.store.rows[1].status == Rescheduled
            && r.store.rows[1].refundValue == Some(5.0)
            && r.store.rows[1].value == 5.0
  {
  }

  /** Rescheduling onto a schedule that does not exist throws, yet the old
      reservation stays rescheduled with no successor. */
  lemma RescheduleOrphansOnMissingSchedule()
    ensures var start := 10 * SecondsPerHour;
            var r := RescheduleReservation(BookedAt(start).store, CatalogAt(start), Guests1(), 1, 9, start, 0);
            && r.result == Failure(ScheduleNotFound(9))
            && r.store.rows.Keys == {1}
            && r.store.rows[1].status == Rescheduled
  {
  }
}

=== FILE: schedules.dfy ===
/** `ScheduleService`: creation of a schedule behind a two-clause guard, and
    lookup by identifier. */
module Schedules {
  import opened Wrappers
  import opened Errors
  import opened Time
  import opened Repository

  /** A bookable time window on a court. */
  datatype Schedule = Schedule(id: nat, start: Instant, end: Instant, courtId: nat)

  /** `CreateScheduleRequestDTO`. */
  datatype ScheduleRequest = ScheduleRequest(start: Instant, end: Instant, courtId: nat)

  type Catalog = Repo<Schedule>

  /** The catalog after a call, and what the call returned or threw. */
  datatype Added = Added(catalog: Catalog, result: Result<Schedule, Error>)

  /** The identifier a schedule is stored under. */
  function ScheduleId(s: Schedule): nat {
    s.id
  }

  /** `verifyAddSchedule`: `None` when the window is accepted, otherwise the
      error of the first clause that rejects it. */
  function VerifyAddSchedule(start: Instant, end: Instant, now: Instant): (r: Option<Error>)
    ensures r.None? <==> now <= start <= end
    ensures r == Some(StartBeforeNow) <==> start < now
    ensures r == Some(EndBeforeStart) <==> now <= start && end < start
  {
    if IsBefore(start, now) then Some(StartBeforeNow)
    else if IsBefore(end, start) then Some(EndBeforeStart)
    else None
  }

  /** `addSchedule`. The court named in the request is looked up first
      (`createScheduleDTO`), then the window is verified, and only then is the
      schedule saved. The `tennisCourtId` argument is not read: the request's
      own court identifier is the one used. */
  function AddSchedule(catalog: Catalog, courts: set<nat>, tennisCourtId: nat,
                       request: ScheduleRequest, now: Instant): (r: Added)
    ensures r.result.Success? <==>
              request.courtId in courts && now <= request.start <= request.end
    ensures request.courtId !in courts ==> r.result == Failure(CourtNotFound(request.courtId))
    ensures request.courtId in courts && r.result.Failure? ==> r.result.error.IsBusiness()
    ensures request.courtId in courts && request.start < now ==>
              r.result == Failure(StartBeforeNow)
    ensures request.courtId in courts && now <= request.start && request.end < request.start ==>
              r.result == Failure(EndBeforeStart)
    ensures r.result.Failure? ==> r.catalog == catalog
    ensures r.result.Success? ==>
              var s := r.result.value;
              && s.start == request.start && s.end == request.end
              && s.courtId == request.courtId
              && s.id == catalog.nextId
              && r.catalog.rows == catalog.rows[s.id := s]
    ensures catalog.Valid() ==> r.catalog.Valid()
    ensures catalog.KeyedBy(ScheduleId) ==> r.catalog.KeyedBy(ScheduleId)
  {
    if request.courtId !in courts then
      Added(catalog, Failure(CourtNotFound(request.courtId)))
    else
      match VerifyAddSchedule(request.start, request.end, now)
      case Some(e) => Added(catalog, Failure(e))
      case None =>
        var s := Schedule(catalog.nextId, request.start, request.end, request.courtId);
        Added(catalog.Insert(s), Success(s))
  }

  /** The `tennisCourtId` argument of `addSchedule` has no effect. */
  lemma AddScheduleIgnoresCourtArgument(catalog: Catalog, courts: set<nat>, a: nat, b: nat,
                                        request: ScheduleRequest, now: Instant)
    ensures AddSchedule(catalog, courts, a, request, now) == AddSchedule(catalog, courts, b, request, now)
  {
  }

  /** `findSchedule`: the stored schedule, or `EntityNotFoundException`. */
  function FindSchedule(catalog: Catalog, id: nat): (r: Result<Schedule, Error>)
    ensures r.Success? <==> id in catalog.rows
    ensures r.Success? ==> r.value == catalog.rows[id]
    ensures r.Failure? ==> r.error == ScheduleNotFound(id)
  {
    match catalog.FindById(id)
    case Some(s) => Success(s)
    case None => Failure(ScheduleNotFound(id))
  }

  /** What a successful `addSchedule` returns is what `findSchedule` finds. */
  lemma AddThenFind(catalog: Catalog, courts: set<nat>, tennisCourtId: nat,
                    request: ScheduleRequest, now: Instant)
    requires AddSchedule(catalog, courts, tennisCourtId, request, now).result.Success?
    ensures var a := AddSchedule(catalog, courts, tennisCourtId, request, now);
            FindSchedule(a.catalog, a.result.value.id) == Success(a.result.value)
  {
  }
}

=== FILE: time.dfy ===
/** `LocalDateTime` as a count of whole seconds from an arbitrary epoch,
    with the two operations the services use on it. */
module Time {

  type Instant = int

  const SecondsPerMinute: int := 60
  const MinutesPerHour: int := 60
  const SecondsPerHour: int := SecondsPerMinute * MinutesPerHour

  /** `a.isBefore(b)`: strictly earlier. Equal instants are not before each other. */
  predicate IsBefore(a: Instant, b: Instant) {
    a < b
  }

  /** `t.plusHours(1)`. */
  function PlusOneHour(t: Instant): (r: Instant)
    ensures IsBefore(t, r)
    ensures r - t == SecondsPerHour
    ensures MinutesBetween(t, r) == MinutesPerHour
  {
    t + SecondsPerHour
  }

  /** `ChronoUnit.MINUTES.between(from, to)`: the whole minutes from `from`
      to `to`, negative when `to` is earlier, truncated toward zero. */
  function MinutesBetween(from: Instant, to: Instant): (m: int)
    ensures from <= to ==> 0 <= m && m * SecondsPerMinute <= to - from < (m + 1) * SecondsPerMinute
    ensures to < from ==> m <= 0 && (m - 1) * SecondsPerMinute < to - from <= m * SecondsPerMinute
  {
    if from <= to then (to - from) / SecondsPerMinute
    else -((from - to) / SecondsPerMinute)
  }

  /** At least `k >= 1` whole minutes lie between `from` and `to` exactly
      when `to` is at least `k * 60` seconds after `from`. */
  lemma AtLeastMinutes(from: Instant, to: Instant, k: int)
    requires k >= 1
    ensures MinutesBetween(from, to) >= k <==> to - from >= k * SecondsPerMinute
  {
  }

  /** The later the reference instant, the fewer minutes remain until `to`. */
  lemma MinutesBetweenAntitone(from1: Instant, from2: Instant, to: Instant)
    requires from1 <= from2
    ensures MinutesBetween(from2, to) <= MinutesBetween(from1, to)
  {
  }
}

=== FILE: wrappers.dfy ===
/** Wrappers: the model's stand-in for Java's `Optional`
    and for methods that either return a value or throw. */
module Wrappers {

  /** An optional value: `Optional.empty()` or a present value. */
  datatype Option<+T> = None | Some(value: T)

  /** The outcome of a call that returns `value` or throws `error`. */
  datatype Result<+T, +E> = Success(value: T) | Failure(error: E)
}
